=== FILE: README.md ===
# Ksim `mips-fast`: a Dafny model of the five-stage pipeline control

This project models the in-order five-stage pipeline of the Ksim MIPS
simulator (`HW3/Ksim/cpus/sync/mips-fast`), non-bypass build, and proves
properties of it.

Everything lives in one immutable `Machine` record (`MipsTypes`). It holds:
- the PC and the 32 general-purpose registers;
- 16 floating-point word pairs, HI and LO;
- the control flags `_toStall`, `_waitForSyscall`, `_sim_exit` and `_boot`;
- the counters;
- the eight pipeline registers: CUR and NXT for IF_ID, ID_EX, EX_MEM and MEM_WB.

The pipeline register `PipeReg` is a datatype. `PipeReg.Clear()` is
`PipeReg::clear`, the canonical empty NOP slot.

Each stage is a pure function per clock phase:

| module | source | stage functions |
|---|---|---|
| `Writeback` | `wb.cc` | `WritebackPhase0` (writeback does all its work in phase 0) |
| `Memory` | `memory.cc` | `MemoryPhase0`, `MemoryPhase1` |
| `Execute` | `executor.cc` | `ExecutePhase0`, `ExecutePhase1` |
| `Decode` | `decode.cc` | `CheckStall`, `DecodePhase0`, `DecodePhase1` |
| `Mipc` | `mips.cc` | `FetchPhase1`, `Reboot` |

The two-phase clock (`AWAIT_P_PHI0` / `AWAIT_P_PHI1`) becomes one sequential
`Mipc.Tick`. Phase 0 runs first, downstream first: writeback, memory, execute,
decode. Phase 1 follows: memory, execute, decode, fetch.

The source does not say which process runs first inside a phase, so the
order is a choice of the model:
- in phase 1, execute's commit (`EX_MEM_CUR = ID_EX_NXT`) comes before
  decode's real decode, which rewrites ID_EX_NXT. Memory's commit also comes
  before it, and fetch after it, so `Dec(ins, TRUE)` sees memory's phase-1
  writes, and IF_ID_CUR and `_pc` as they were before fetch. The body of
  `Dec` is not part of this model, so this placement is a choice too;
- in phase 0, writeback's writes of `_pc` and `_waitForSyscall` come before
  execute's branch redirect of `_pc` and decode's raising of
  `_waitForSyscall`. Where two stages write the same variable, this order
  decides which write wins; it does not remove the race.

Two stages keep a local across the barrier:
- decode keeps its instruction word `ins`;
- memory keeps its sampled `memControl`.

These are carried in `Mipc.Latches`. `Mipc.Phase0` proves that no phase-0
part writes a current pipeline register, so `Mipc.Sample` may read them at
the start of the cycle.

`Mipc.Run` is the fetch loop with a budget of cycles. `Mipc.Simulate` is
`Mipc::MainLoop`.

Code outside the pipeline core (decoder, handlers, memory, syscall emulator)
is passed in through `MipsTypes.Env` as function values:
- the decoder `Dec`, called with `FALSE` (trial) and with `TRUE` (real);
- the `func_*` ALU/control handlers and the `mem_*` memory handlers;
- the memory word fetch;
- the system-call emulator;
- the host byte order, which selects `FP_TWIDDLE`.

Handler pointers are `Option<HandlerId>`, where `None` is NULL.

Three behaviours of the code are easy to misread:
- `Reboot` (`mips.cc:119-166`) does not reset the register files, HI/LO or
  `_nfetched`. It resets only what `mips.cc:139-164` names.
- `check_stall` (`decode.cc:153-228`) checks against both ID_EX_CUR and
  EX_MEM_CUR. A dependent integer instruction right behind its producer
  therefore stalls two cycles, not one (`Decode.ReadAfterWriteStallsTwoCycles`).
- An illegal trial decode forces `_toStall` (`decode.cc:257`), although the
  comment there speaks of continuing after the instruction. Fetch then keeps
  IF_ID_CUR (`mips.cc:41-44`) and decode sends a bubble into ID_EX_CUR
  (`decode.cc:267-268`). The same word is decoded again every cycle and never
  reaches writeback, so fetching stops for good (`Mipc.IllegalDecodeRepeats`,
  and the last ensures of `Mipc.Run`). With the corrected memory commit, the
  halt at `wb.cc:49-58` is reached only by a register marked illegal by `Dec(ins, TRUE)` or by a
  handler after its trial decode was legal. With the commit as written it
  is not reached at all after a reboot, because MEM_WB_CUR never changes
  (see "## Findings").

## Model

| member | source | states |
|---|---|---|
| MipsTypes.PipeReg.Clear | HW3/Ksim/cpus/sync/mips-fast/mips.h:75-114 | the cleared register is a NOP with no syscall/illegal flag, no register/FP/HI/LO write, no memory intent, no handler, no branch (bdslot 0, btaken 0, target 0xdeadbeef) and both source indices at the sentinel 10000 |
| MipsTypes.ClearIgnoresPriorContents | HW3/Ksim/cpus/sync/mips-fast/mips.h:75-114 | clearing gives the same register whatever it held before, and clearing twice equals clearing once |
| MipsTypes.FpWordIndex | HW3/Ksim/cpus/sync/mips-fast/mips.h:14-18 | the word `FP_TWIDDLE ^ (dst & 1)` is the twiddle word exactly for even register numbers |
| Decode.CheckStall | HW3/Ksim/cpus/sync/mips-fast/decode.cc:153-228 | `check_stall` returns true exactly when a non-exempt source is in the write set of ID_EX_CUR or EX_MEM_CUR (integer writes for integer instructions, FP writes for FP ones), or a HI/LO write intent meets an open HI/LO port downstream |
| Decode.IntegerExemptSourcesNeverStall | HW3/Ksim/cpus/sync/mips-fast/decode.cc:190-219 | for an integer instruction whose sources are r0 or the sentinel, only a HI/LO conflict can stall |
| Decode.FloatingPointSourceZeroStalls | HW3/Ksim/cpus/sync/mips-fast/decode.cc:157-175 | for an FP instruction source 0 is not exempt: it stalls against a pending FP write of register 0 |
| Decode.IntegerSourceStall | HW3/Ksim/cpus/sync/mips-fast/decode.cc:190-219 | an integer instruction without HI/LO intent stalls iff one of its sources, other than 0 and the sentinel, is the destination of a downstream register with `_writeREG` |
| Decode.FloatingPointSourceStall | HW3/Ksim/cpus/sync/mips-fast/decode.cc:157-189 | an FP instruction without HI/LO intent stalls iff one of its sources, other than the sentinel, is the destination of a downstream register with `_writeFREG` |
| Decode.HiLoConflictStalls | HW3/Ksim/cpus/sync/mips-fast/decode.cc:221-225 | a LO (HI) write intent stalls when either downstream register has its LO (HI) port open, whatever the sources |
| Decode.ClearedDownstreamNeverStalls | HW3/Ksim/cpus/sync/mips-fast/decode.cc:153-228 | with both downstream registers cleared, no instruction stalls |
| Decode.ReadAfterWriteStallsTwoCycles | HW3/Ksim/cpus/sync/mips-fast/decode.cc:193-218 | a dependent integer instruction stalls with its producer in ID_EX, again with it in EX_MEM behind a bubble, and not once the producer has left both |
| Decode.DecodePhase0 | HW3/Ksim/cpus/sync/mips-fast/decode.cc:236-263 | only IF_ID_NXT and the two flags change; IF_ID_NXT is the trial decode of IF_ID_CUR; an illegal op stalls without the hazard check, otherwise the stall flag is the hazard; the syscall wait is raised only by an unstalled syscall and otherwise kept |
| Decode.DecodePhase1 | HW3/Ksim/cpus/sync/mips-fast/decode.cc:265-276 | a stall puts the cleared register in ID_EX_CUR and leaves ID_EX_NXT; otherwise ID_EX_NXT is the real decode and ID_EX_CUR equals it |
| SysCall.SetReg | HW3/Ksim/cpus/sync/mips-fast/mips.cc:195-198 | only the named register changes, and it holds the 64-bit value reduced modulo 2^32 |
| SysCall.GetReg | HW3/Ksim/cpus/sync/mips-fast/mips.cc:200-203 | the value returned is a zero-extended 32-bit register |
| SysCall.SetRegThenGetReg | HW3/Ksim/cpus/sync/mips-fast/mips.cc:195-203 | reading back a written register returns the value truncated to 32 bits (the value itself when it fits) |
| SysCall.GetRegThenSetReg | HW3/Ksim/cpus/sync/mips-fast/mips.cc:195-203 | writing back the value just read changes nothing |
| SysCall.FakeSyscall | HW3/Ksim/cpus/sync/mips-fast/mips.cc:102-109 | only the registers, memory and `_sim_exit` change; `_sim_exit` becomes 1 exactly when the emulator reports quit and is otherwise unchanged |
| Mipc.QuitEndsRun | HW3/Ksim/cpus/sync/mips-fast/mips.cc:102-109 | a syscall at writeback whose emulation reports quit sets `_sim_exit` to 1, and the run halts with an exit request before the next cycle |
| Execute.ExecutePhase0 | HW3/Ksim/cpus/sync/mips-fast/executor.cc:24-55 | only ID_EX_NXT and the PC change; the handler runs only for a non-syscall, non-illegal instruction with a non-NULL handler, otherwise ID_EX_NXT is the sampled register; the PC becomes the branch target exactly for a non-syscall, non-illegal instruction whose resolved `_bdslot` and `_btaken` are set |
| Execute.ExecutePhase1 | HW3/Ksim/cpus/sync/mips-fast/executor.cc:57-58 | EX_MEM_CUR receives the executed ID_EX_NXT and nothing else changes |
| Execute.TrapsPassThrough | HW3/Ksim/cpus/sync/mips-fast/executor.cc:44-58 | syscall and illegal instructions reach EX_MEM_CUR unchanged and leave the PC untouched |
| Execute.ClearedPassesThrough | HW3/Ksim/cpus/sync/mips-fast/executor.cc:26-58 | a cleared ID_EX register passes into EX_MEM_CUR unchanged and nothing else, the PC included, changes |
| Execute.CommitsExecutedRegister | HW3/Ksim/cpus/sync/mips-fast/executor.cc:26-58 | after the commit EX_MEM_CUR is the sampled ID_EX_CUR as updated by its handler |
| Memory.MemoryPhase0 | HW3/Ksim/cpus/sync/mips-fast/memory.cc:16-19 | EX_MEM_NXT receives a copy of EX_MEM_CUR and nothing else changes |
| Memory.Access | HW3/Ksim/cpus/sync/mips-fast/memory.cc:19-35 | the memory handler runs exactly when the sampled `memControl` is set; without it neither EX_MEM_NXT nor memory changes |
| Memory.MemoryPhase1AsWritten | HW3/Ksim/cpus/sync/mips-fast/memory.cc:21-37 | as written, MEM_WB_CUR receives MEM_WB_NXT and nothing besides EX_MEM_NXT and memory changes |
| Memory.MemoryPhase1 | HW3/Ksim/cpus/sync/mips-fast/memory.cc:21-37 | corrected: MEM_WB_CUR receives the processed EX_MEM_NXT; a non-memory instruction arrives unchanged with memory untouched |
| Writeback.Commit | HW3/Ksim/cpus/sync/mips-fast/wb.cc:59-92 | every location in the priority-ordered target set (GPR, else FP word, else HI and/or LO) receives its result word and every other location keeps its value |
| Writeback.ForceZero | HW3/Ksim/cpus/sync/mips-fast/wb.cc:93 | register 0 becomes zero and every other register keeps its value |
| Writeback.WritebackPhase0 | HW3/Ksim/cpus/sync/mips-fast/wb.cc:24-93 | a syscall traps to the emulator: only the registers, memory, `_sim_exit`, the PC and the wait flag change, the PC resumes at the syscall's PC + 4 (mod 2^32), the wait is cleared, registers and memory are the emulator's and `_sim_exit` becomes 1 exactly on quit; an illegal op halts with no write at all; otherwise exactly the target locations change; r0 is zero whenever the step does not halt |
| Writeback.IntegerWriteChangesOnlyDestination | HW3/Ksim/cpus/sync/mips-fast/wb.cc:61-63 | an integer write gives the destination the low result word and leaves every other register, FP, HI and LO unchanged |
| Writeback.RegisterZeroSurvivesWrite | HW3/Ksim/cpus/sync/mips-fast/wb.cc:61-93 | a write aimed at r0 still leaves r0 zero |
| Writeback.FloatingPointWriteLandsInPair | HW3/Ksim/cpus/sync/mips-fast/wb.cc:68-74 | an FP write stores the low result in word `FP_TWIDDLE ^ (dst & 1)` of pair `dst >> 1`; the other word, the other pairs, GPRs, HI and LO are unchanged |
| Writeback.HiAndLoCommitTogether | HW3/Ksim/cpus/sync/mips-fast/wb.cc:75-91 | LO and HI both commit in one cycle, LO from the low and HI from the high result word |
| Writeback.ClearedCommitsNothing | HW3/Ksim/cpus/sync/mips-fast/wb.cc:59-93 | a cleared MEM_WB register commits nothing beyond zeroing r0 |
| Mipc.FetchPhase1 | HW3/Ksim/cpus/sync/mips-fast/mips.cc:36-61 | a pending syscall clears IF_ID_CUR; a stall changes nothing; otherwise IF_ID_CUR gets the old PC and the fetched word and the PC advances by 4; `_nfetched` grows by one exactly when fetching |
| Mipc.Reboot | HW3/Ksim/cpus/sync/mips-fast/mips.cc:119-166 | no image: only `_boot` becomes 0; an unopenable image is a fatal error; a loaded image clears the flags, the six category counters and all eight pipeline registers, sets `_sim_exit` to 0 and the PC to the boot PC, and keeps registers and `_nfetched` |
| Mipc.Phase0 | HW3/Ksim/cpus/sync/mips-fast/mips.cc:31-33 | the phase-0 parts of writeback (wb.cc:24-93), memory (memory.cc:16-19), execute (executor.cc:24-55) and decode (decode.cc:236-263): phase 0 halts exactly on an illegal, non-syscall MEM_WB_CUR; it writes no current pipeline register; MEM_WB_NXT and EX_MEM_NXT are copies of MEM_WB_CUR and EX_MEM_CUR, so the `Sample` latches equal the decode word and the `_memControl` the stages read |
| Mipc.Phase1 | HW3/Ksim/cpus/sync/mips-fast/mips.cc:33-61 | the phase-1 parts of memory (memory.cc:21-37, corrected), execute (executor.cc:57-58), decode (decode.cc:265-276) and fetch: only the pipeline registers, memory, the PC and `_nfetched` change (no register file, flag, `isSubreg` or category counter); memory becomes what the memory handler leaves when `memControl` is latched and is otherwise kept; EX_MEM_CUR receives ID_EX_NXT and MEM_WB_CUR the register memory processed; a stall puts a bubble in ID_EX_CUR, otherwise ID_EX_CUR and ID_EX_NXT are the real decode of the latched word on the machine after memory's and execute's commits; a pending syscall clears IF_ID_CUR, a stall keeps it and the PC, and otherwise IF_ID_CUR receives the PC and the word fetched there and the PC advances by 4; one fetch is counted exactly when neither flag is set |
| Mipc.Phase1AsWritten | HW3/Ksim/cpus/sync/mips-fast/mips.cc:33-61 | the same phase-1 guarantees as `Phase1` for execute (executor.cc:57-58), decode (decode.cc:265-276) and fetch, including the frame, the memory contents and the real decode committed to an unstalled ID_EX_CUR, but with memory.cc:37 as written MEM_WB_CUR receives MEM_WB_NXT |
| Mipc.Tick | HW3/Ksim/cpus/sync/mips-fast/mips.cc:31-61 | a cycle halts only on an illegal op at writeback, with no register written; otherwise r0 is zero afterwards; `_nfetched` grows by at most one |
| Mipc.TickAsWritten | HW3/Ksim/cpus/sync/mips-fast/memory.cc:37 | the cycle with the memory commit as written keeps `Tick`'s guarantees (halt only on an illegal op at writeback with nothing written, r0 zero, at most one fetch) but leaves MEM_WB_CUR unchanged, so writeback sees the same register in every cycle |
| Mipc.Run | HW3/Ksim/cpus/sync/mips-fast/mips.cc:31-67 | over a run of cycles r0 stays zero and `_nfetched` grows by at most one per cycle; a raised `_sim_exit` ends the loop before any cycle, so a run still going has `_sim_exit` 0; the only halts are an exit request and an illegal op; once a word that trial-decodes as illegal is in IF_ID_CUR (no syscall pending), every run that has not halted still holds it there and has fetched nothing more (mips.cc:41-44 with decode.cc:255-258) |
| Mipc.Simulate | HW3/Ksim/cpus/sync/mips-fast/mips.cc:22-31 | an unbooted machine is refused; otherwise `_nfetched` starts at 0 and ends at most the number of cycles |
| Mipc.StallHoldsInstruction | HW3/Ksim/cpus/sync/mips-fast/mips.cc:41-44 | in a stall cycle with no syscall pending, IF_ID_CUR keeps the stalled instruction, nothing is fetched and ID_EX_CUR receives a bubble |
| Mipc.IllegalDecodeRepeats | HW3/Ksim/cpus/sync/mips-fast/decode.cc:255-258 | a word whose trial decode is illegal is held in IF_ID_CUR with the stall flag set, a bubble enters ID_EX_CUR, no syscall wait is raised and nothing is fetched |
| Mipc.SyscallWaitSuspendsFetch | HW3/Ksim/cpus/sync/mips-fast/mips.cc:36-40 | while a syscall is pending, fetch clears IF_ID_CUR and fetches nothing, even if decode also stalled |
| Mipc.FetchCountsInstruction | HW3/Ksim/cpus/sync/mips-fast/mips.cc:53-61 | an unstalled cycle with no syscall pending fetches exactly one instruction |
| Mipc.TickAdvancesPipeline | HW3/Ksim/cpus/sync/mips-fast/executor.cc:57-58 | an unexecuted ID_EX register reaches EX_MEM_CUR unchanged, and a non-memory EX_MEM register reaches MEM_WB_CUR unchanged, in one cycle |
| Mipc.AsWrittenDropsInstruction | HW3/Ksim/cpus/sync/mips-fast/memory.cc:37 | a non-memory instruction in EX_MEM_CUR never reaches MEM_WB_CUR as written, but does with the corrected commit |
| Mipc.FirstCycleAfterReboot | HW3/Ksim/cpus/sync/mips-fast/mips.cc:139-164 | the first cycle after a reboot writes no register but r0, redirects no branch, stalls only on an illegal decode, and fetches from the boot PC unless decode stalled or waits for a syscall |

## Findings

| source | as written | input that shows it | evidently intended | confidence | as-written member | corrected member |
|---|---|---|---|---|---|---|
| HW3/Ksim/cpus/sync/mips-fast/memory.cc:37 | `MEM_WB_CUR = MEM_WB_NXT`, where MEM_WB_NXT was filled from MEM_WB_CUR by wb.cc:26, so MEM_WB_CUR never changes and no result reaches writeback | any cycle where EX_MEM_CUR holds a non-memory instruction (say one with `_writeREG`) that differs from MEM_WB_CUR | `MEM_WB_CUR = EX_MEM_NXT` (the register the memory stage just processed) | high; not executed | Mipc.AsWrittenDropsInstruction | Memory.MemoryPhase1 |

`Mipc.Tick` uses the corrected memory stage. `Mipc.TickAsWritten` keeps the
literal one, so the finding can be stated against it.

## Left out

- The bypass build is left out. This covers `check_bypass`, `updateInputArgs` and the `_bypSRC*` fields. `BYPASS_ENABLED` is commented out, so this code is not compiled.
- The `BRANCH_INTERLOCK` paths are left out, because that macro is never defined.
- The bodies of `Dec`, the `func_*` handlers and the `mem_*` handlers are not modelled. They appear as functions in `Env`.
  - The model assumes a handler writes only its in-flight register, plus memory for `mem_*`.
  - The category counters these handlers may bump therefore change only at `Reboot`.
- The handler behind a syscall-flagged register's `_opControl` is taken to be the syscall handler that calls `fake_syscall`. The body of `func_syscall` is not part of this model.
- Calling a NULL handler is undefined in the source.
  - Writeback calls the handler without a NULL check. The model runs `fake_syscall` there.
  - The memory stage calls `_memOp` when `_memControl` is set. The model passes the pointer, NULL or not, to the `Env` memory function.
- The memory model is opaque: `Read`, `BEGetWord`, `BESetWord`, `ReadImage` and the `MipcSysCall` word/double-word accessors are not modelled. The syscall layer's own load/store counters are not modelled either.
- `EmulateSysCall` and `GetTime` are external.
- I/O is left out:
  - reading the boot image file (the result of `ReadImage` is the `Loaded` store);
  - `ParamGetString` and `ParamGetInt` (the boot PC is a parameter);
  - printing, logging and `dumpregs`;
  - `MipcDumpstats` and its floating-point CPI;
  - the `Mipc` constructor.

  `fatal_error` is `Failure(CannotOpenImage)`. `exit` is a `Halted` outcome.
- The float and double views of `_fpr` are left out. Only the two 32-bit words of each pair are modelled.
- The process scheduling of `AWAIT_P_PHI0` and `AWAIT_P_PHI1` is left out. It is replaced by the sequential stage order described above.
- `decodedDST` is typed as a register number 0..31. The source field is `unsigned`, and an out-of-range value would index past `_gpr`.
- The 64-bit counters are unbounded naturals, so their overflow is not modelled.
- `Mipc.Run` takes a cycle budget. The source loop runs until `_sim_exit` is raised or writeback meets an illegal instruction, and may spin forever (see the illegal trial decode above).
- Some properties need a concrete decoder and handlers, so they are not stated:
  - equivalence with a sequential interpreter;
  - the values produced in the ADD/SUB scenario.

=== FILE: decode.dfy ===
/**
  The decode stage (`Decode::check_stall` and `Decode::MainLoop`) of the
  non-bypass build: hazard detection against the two downstream pipeline
  registers, the stall/syscall decision, and the commit into ID_EX_CUR.
 */
module Decode {
  import opened MipsTypes

  /** A source-register index that is never checked for a hazard: the
      "no register" sentinel, and for an integer instruction also r0. */
  predicate Exempt(src: Word, fp: bool) {
    src == RegDefault || (!fp && src == 0)
  }

  /** The downstream register `d` will write register `src` of the file
      (integer or floating-point) the instruction reads from. */
  predicate Produces(d: PipeReg, src: Word, fp: bool) {
    (if fp then d.writeFREG else d.writeREG) && src == d.decodedDST
  }

  /** `Decode::check_stall`, branch for branch: whether the trial-decoded
      register `n` must wait for the instructions now in ID_EX_CUR (`idEx`)
      and EX_MEM_CUR (`exMem`). */
  function CheckStall(n: PipeReg, idEx: PipeReg, exMem: PipeReg): (toStall: bool)
    ensures toStall <==> Hazard(n, idEx, exMem)
  {
    var srcStall :=
      if n.requiresFP then
        (n.regSRC1 != RegDefault
          && ((idEx.writeFREG && n.regSRC1 == idEx.decodedDST)
              || (exMem.writeFREG && n.regSRC1 == exMem.decodedDST)))
        || (n.regSRC2 != RegDefault
          && ((idEx.writeFREG && n.regSRC2 == idEx.decodedDST)
              || (exMem.writeFREG && n.regSRC2 == exMem.decodedDST)))
      else
        (n.regSRC1 != 0 && n.regSRC1 != RegDefault
          && ((idEx.writeREG && n.regSRC1 == idEx.decodedDST)
              || (exMem.writeREG && n.regSRC1 == exMem.decodedDST)))
        || (n.regSRC2 != 0 && n.regSRC2 != RegDefault
          && ((idEx.writeREG && n.regSRC2 == idEx.decodedDST)
              || (exMem.writeREG && n.regSRC2 == exMem.decodedDST)));
    var loStall := n.loWrite && (idEx.loWPort || exMem.loWPort);
    var hiStall := n.hiWrite && (idEx.hiWPort || exMem.hiWPort);
    HiLoConflictByPort(n, idEx, exMem);
    SourceOverlapByRegister(n, idEx, exMem);
    srcStall || loStall || hiStall
  }

  // ---------------------------------------------------------------------
  // Reference definition of a hazard, by read and write sets.

  /** The registers `n` reads that are subject to hazard checks. */
  function ReadSet(n: PipeReg): set<int> {
    (if Exempt(n.regSRC1, n.requiresFP) then {} else {n.regSRC1 as int})
    + (if Exempt(n.regSRC2, n.requiresFP) then {} else {n.regSRC2 as int})
  }

  /** The registers of the integer (`fp` false) or floating-point file that `d` will write. */
  function WriteSet(d: PipeReg, fp: bool): set<int> {
    if (if fp then d.writeFREG else d.writeREG) then {d.decodedDST as int} else {}
  }

  datatype HiLo = HiReg | LoReg

  /** HI/LO registers that `n` intends to write. */
  function HiLoIntent(n: PipeReg): set<HiLo> {
    (if n.hiWrite then {HiReg} else {}) + (if n.loWrite then {LoReg} else {})
  }

  /** HI/LO write ports `d` holds open. */
  function HiLoPorts(d: PipeReg): set<HiLo> {
    (if d.hiWPort then {HiReg} else {}) + (if d.loWPort then {LoReg} else {})
  }

  /** `n` wants to write HI or LO while a downstream instruction holds the
      same port open. */
  predicate HiLoConflict(n: PipeReg, idEx: PipeReg, exMem: PipeReg) {
    HiLoIntent(n) * (HiLoPorts(idEx) + HiLoPorts(exMem)) != {}
  }

  /** `n` reads a register a downstream instruction writes exactly when one
      of its two non-exempt sources is produced downstream. */
  lemma SourceOverlapByRegister(n: PipeReg, idEx: PipeReg, exMem: PipeReg)
    ensures var fp := n.requiresFP;
      ReadSet(n) * (WriteSet(idEx, fp) + WriteSet(exMem, fp)) != {} <==>
      || (!Exempt(n.regSRC1, fp) && (Produces(idEx, n.regSRC1, fp) || Produces(exMem, n.regSRC1, fp)))
      || (!Exempt(n.regSRC2, fp) && (Produces(idEx, n.regSRC2, fp) || Produces(exMem, n.regSRC2, fp)))
  {
  }

  /** A HI/LO conflict is a LO intent meeting an open LO port or a HI intent
      meeting an open HI port. */
  lemma HiLoConflictByPort(n: PipeReg, idEx: PipeReg, exMem: PipeReg)
    ensures HiLoConflict(n, idEx, exMem) <==>
      || (n.loWrite && (idEx.loWPort || exMem.loWPort))
      || (n.hiWrite && (idEx.hiWPort || exMem.hiWPort))
  {
  }

  /** A hazard: `n` reads a register one of the two downstream instructions
      writes, or has a HI/LO conflict with one of them. */
  predicate Hazard(n: PipeReg, idEx: PipeReg, exMem: PipeReg) {
    || ReadSet(n) * (WriteSet(idEx, n.requiresFP) + WriteSet(exMem, n.requiresFP)) != {}
    || HiLoConflict(n, idEx, exMem)
  }

  // ---------------------------------------------------------------------
  // Properties of check_stall.

  /** For an integer instruction, sources r0 and the sentinel never stall:
      only a HI/LO conflict can. */
  lemma IntegerExemptSourcesNeverStall(n: PipeReg, idEx: PipeReg, exMem: PipeReg)
    requires !n.requiresFP
    requires n.regSRC1 == 0 || n.regSRC1 == RegDefault
    requires n.regSRC2 == 0 || n.regSRC2 == RegDefault
    ensures CheckStall(n, idEx, exMem) <==> HiLoConflict(n, idEx, exMem)
  {
  }

  /** For a floating-point instruction only the sentinel is exempt: source
      register 0 stalls against a pending FP write of register 0. */
  lemma FloatingPointSourceZeroStalls(n: PipeReg, idEx: PipeReg, exMem: PipeReg)
    requires n.requiresFP && n.regSRC1 == 0
    requires idEx.writeFREG && idEx.decodedDST == 0
    ensures CheckStall(n, idEx, exMem)
  {
  }

  /** An integer instruction stalls on a source exactly when a downstream
      register writes that integer register; pending FP writes are ignored. */
  lemma IntegerSourceStall(n: PipeReg, idEx: PipeReg, exMem: PipeReg)
    requires !n.requiresFP && !n.loWrite && !n.hiWrite
    ensures CheckStall(n, idEx, exMem) <==>
      exists src :: src in {n.regSRC1, n.regSRC2} && src != 0 && src != RegDefault
        && (Produces(idEx, src, false) || Produces(exMem, src, false))
  {
    if CheckStall(n, idEx, exMem) {
      var s: set<int> := ReadSet(n) * (WriteSet(idEx, false) + WriteSet(exMem, false));
      var x :| x in s;
      var src: Word := if x == n.regSRC1 as int then n.regSRC1 else n.regSRC2;
      assert src as int == x;
      assert src in {n.regSRC1, n.regSRC2} && src != 0 && src != RegDefault
        && (Produces(idEx, src, false) || Produces(exMem, src, false));
    }
  }

  /** A floating-point instruction stalls on a source exactly when a
      downstream register writes that FP register; integer writes are ignored. */
  lemma FloatingPointSourceStall(n: PipeReg, idEx: PipeReg, exMem: PipeReg)
    requires n.requiresFP && !n.loWrite && !n.hiWrite
    ensures CheckStall(n, idEx, exMem) <==>
      exists src :: src in {n.regSRC1, n.regSRC2} && src != RegDefault
        && (Produces(idEx, src, true) || Produces(exMem, src, true))
  {
    if CheckStall(n, idEx, exMem) {
      var s: set<int> := ReadSet(n) * (WriteSet(idEx, true) + WriteSet(exMem, true));
      var x :| x in s;
      var src: Word := if x == n.regSRC1 as int then n.regSRC1 else n.regSRC2;
      assert src as int == x;
      assert src in {n.regSRC1, n.regSRC2} && src != RegDefault
        && (Produces(idEx, src, true) || Produces(exMem, src, true));
    }
  }

  /** A HI or LO write intent stalls behind a downstream open port of the
      same register, whatever the source registers are. */
  lemma HiLoConflictStalls(n: PipeReg, idEx: PipeReg, exMem: PipeReg)
    requires HiLoConflict(n, idEx, exMem)
    ensures CheckStall(n, idEx, exMem)
  {
  }

  /** With both downstream registers cleared, nothing stalls. */
  lemma ClearedDownstreamNeverStalls(n: PipeReg)
    ensures !CheckStall(n, Empty, Empty)
  {
  }

  /** An integer instruction reading the non-zero destination of the
      instruction just ahead of it stalls twice: once with the producer in
      ID_EX (`producer` over an arbitrary `exMem`) and once with it in
      EX_MEM behind the injected bubble; once the producer has left both
      registers it no longer stalls. */
  lemma ReadAfterWriteStallsTwoCycles(n: PipeReg, producer: PipeReg, exMem: PipeReg)
    requires !n.requiresFP && !n.loWrite && !n.hiWrite
    requires producer.writeREG && producer.decodedDST != 0
    requires n.regSRC1 == producer.decodedDST || n.regSRC2 == producer.decodedDST
    ensures CheckStall(n, producer, exMem)
    ensures CheckStall(n, Empty, producer)
    ensures !CheckStall(n, Empty, Empty)
  {
  }

  // ---------------------------------------------------------------------
  // Decode::MainLoop

  /** Phase 0 of `Decode::MainLoop`: copy IF_ID_CUR into IF_ID_NXT, trial-decode
      it, and decide `_toStall` (an illegal op always stalls) and
      `_waitForSyscall` (raised by an unstalled syscall, otherwise kept). */
  function DecodePhase0(m: Machine, env: Env): (r: Machine)
    ensures r == m.(ifIdNxt := r.ifIdNxt, toStall := r.toStall, waitForSyscall := r.waitForSyscall)
    ensures r.ifIdNxt == env.trialDecode(m.(ifIdNxt := m.ifIdCur), m.ifIdCur.ins)
    ensures r.ifIdNxt.isIllegalOp ==> r.toStall
    ensures !r.ifIdNxt.isIllegalOp ==> (r.toStall <==> Hazard(r.ifIdNxt, m.idExCur, m.exMemCur))
    ensures r.waitForSyscall <==> m.waitForSyscall || (!r.toStall && r.ifIdNxt.isSyscall)
  {
    var m1 := m.(ifIdNxt := m.ifIdCur);
    var ins := m1.ifIdNxt.ins;
    var nxt := env.trialDecode(m1, ins);
    var stall := if !nxt.isIllegalOp then CheckStall(nxt, m.idExCur, m.exMemCur) else true;
    var wait := if !stall && nxt.isSyscall then true else m.waitForSyscall;
    m1.(ifIdNxt := nxt, toStall := stall, waitForSyscall := wait)
  }

  /** Phase 1 of `Decode::MainLoop`: a stall injects a cleared register into
      ID_EX_CUR; otherwise the real decode of the sampled instruction `ins`
      is written to ID_EX_NXT and committed to ID_EX_CUR. */
  function DecodePhase1(m: Machine, env: Env, ins: Word): (r: Machine)
    ensures r == m.(idExCur := r.idExCur, idExNxt := r.idExNxt)
    ensures m.toStall ==> r.idExCur == Empty && r.idExNxt == m.idExNxt
    ensures !m.toStall ==> r.idExNxt == env.realDecode(m, ins) && r.idExCur == r.idExNxt
  {
    if m.toStall then
      m.(idExCur := m.idExCur.Clear())
    else
      var d := env.realDecode(m, ins);
      m.(idExNxt := d, idExCur := d)
  }
}

=== FILE: executor.dfy ===
/**
  The execute stage, `Exe::MainLoop`: run the ALU/control handler of the
  instruction in ID_EX_CUR, redirect the PC for a taken branch whose delay
  slot is being executed, and commit the result into EX_MEM_CUR.
 */
module Execute {
  import opened MipsTypes

  /** The instruction's ALU/control handler is invoked: it is neither a
      syscall nor illegal and its handler pointer is not NULL. */
  predicate RunsHandler(n: PipeReg) {
    !n.isSyscall && !n.isIllegalOp && n.opControl.Some?
  }

  /** After its handler, the instruction redirects the PC. */
  predicate Redirects(n: PipeReg, resolved: PipeReg) {
    !n.isSyscall && !n.isIllegalOp && resolved.bdslot != 0 && resolved.btaken != 0
  }

  /** Phase 0 of `Exe::MainLoop`: sample ID_EX_CUR into ID_EX_NXT, apply the
      handler when `RunsHandler`, and when `Redirects` set the PC to the
      resolved branch target. Syscalls and illegal ops pass through. */
  function ExecutePhase0(m: Machine, env: Env): (r: Machine)
    ensures r == m.(idExNxt := r.idExNxt, pc := r.pc)
    ensures RunsHandler(m.idExCur) ==>
      r.idExNxt == env.execute(m.idExCur.opControl.value, m.(idExNxt := m.idExCur), m.idExCur.ins)
    ensures !RunsHandler(m.idExCur) ==> r.idExNxt == m.idExCur
    ensures Redirects(m.idExCur, r.idExNxt) ==> r.pc == r.idExNxt.btgt
    ensures !Redirects(m.idExCur, r.idExNxt) ==> r.pc == m.pc
  {
    var m1 := m.(idExNxt := m.idExCur);
    var ins := m1.idExNxt.ins;
    if !m1.idExNxt.isSyscall && !m1.idExNxt.isIllegalOp then
      var n := if m1.idExNxt.opControl.Some? then env.execute(m1.idExNxt.opControl.value, m1, ins) else m1.idExNxt;
      var m2 := m1.(idExNxt := n);
      if n.bdslot != 0 && n.btaken != 0 then m2.(pc := n.btgt) else m2
    else
      m1
  }

  /** Phase 1 of `Exe::MainLoop`: EX_MEM_CUR receives the executed register;
      nothing else changes. */
  function ExecutePhase1(m: Machine): (r: Machine)
    ensures r == m.(exMemCur := r.exMemCur)
    ensures r.exMemCur == m.idExNxt
  {
    m.(exMemCur := m.idExNxt)
  }

  /** A syscall or illegal instruction is not executed: it reaches EX_MEM_CUR
      unchanged and the PC is untouched. */
  lemma TrapsPassThrough(m: Machine, env: Env)
    requires m.idExCur.isSyscall || m.idExCur.isIllegalOp
    ensures ExecutePhase1(ExecutePhase0(m, env)).exMemCur == m.idExCur
    ensures ExecutePhase0(m, env).pc == m.pc
  {
  }

  /** A cleared register passes through execute unchanged and leaves the PC alone. */
  lemma ClearedPassesThrough(m: Machine, env: Env)
    requires m.idExCur == Empty
    ensures ExecutePhase1(ExecutePhase0(m, env)) == m.(idExNxt := m.idExCur, exMemCur := m.idExCur)
  {
  }

  /** The handler-executed register is what EX_MEM_CUR holds after the cycle. */
  lemma CommitsExecutedRegister(m: Machine, env: Env)
    requires RunsHandler(m.idExCur)
    ensures ExecutePhase1(ExecutePhase0(m, env)).exMemCur
         == env.execute(m.idExCur.opControl.value, m.(idExNxt := m.idExCur), m.idExCur.ins)
  {
  }
}

=== FILE: memory.dfy ===
/**
  The memory stage, `Memory::MainLoop`: sample EX_MEM_CUR, invoke the
  memory-access handler of a load or store, and commit towards writeback.
 */
module Memory {
  import opened MipsTypes

  /** Phase 0 of `Memory::MainLoop`: EX_MEM_NXT receives a copy of EX_MEM_CUR;
      its `_memControl` flag is the one sampled for phase 1. */
  function MemoryPhase0(m: Machine): (r: Machine)
    ensures r == m.(exMemNxt := r.exMemNxt)
    ensures r.exMemNxt == m.exMemCur
  {
    m.(exMemNxt := m.exMemCur)
  }

  /** The memory access of phase 1, gated by the sampled `memControl`: the
      handler designated by `_memOp` updates EX_MEM_NXT and the memory;
      without `memControl` nothing changes. */
  function Access(m: Machine, env: Env, memControl: bool): (r: Machine)
    ensures r == m.(exMemNxt := r.exMemNxt, store := r.store)
    ensures memControl ==>
      r.exMemNxt == env.memAccess(m.exMemNxt.memOp, m).reg && r.store == env.memAccess(m.exMemNxt.memOp, m).store
    ensures !memControl ==> r == m
  {
    if memControl then
      var e := env.memAccess(m.exMemNxt.memOp, m);
      m.(exMemNxt := e.reg, store := e.store)
    else
      m
  }

  /** Phase 1 of `Memory::MainLoop` as it is written: after the access,
      MEM_WB_CUR receives MEM_WB_NXT -- which writeback's phase 0 filled with
      a copy of MEM_WB_CUR itself. */
  function MemoryPhase1AsWritten(m: Machine, env: Env, memControl: bool): (r: Machine)
    ensures r == m.(exMemNxt := r.exMemNxt, store := r.store, memWbCur := m.memWbNxt)
  {
    var m1 := Access(m, env, memControl);
    m1.(memWbCur := m1.memWbNxt)
  }

  /** Phase 1 of `Memory::MainLoop` as evidently intended: after the access,
      MEM_WB_CUR receives the register the memory stage just processed. A
      non-memory instruction reaches MEM_WB_CUR exactly as it left execute. */
  function MemoryPhase1(m: Machine, env: Env, memControl: bool): (r: Machine)
    ensures r == m.(exMemNxt := r.exMemNxt, store := r.store, memWbCur := r.exMemNxt)
    ensures !memControl ==> r.memWbCur == m.exMemNxt && r.store == m.store
    ensures memControl ==> r.memWbCur == env.memAccess(m.exMemNxt.memOp, m).reg
  {
    var m1 := Access(m, env, memControl);
    m1.(memWbCur := m1.exMemNxt)
  }
}

=== FILE: mips.dfy ===
/**
  The processor driver of `mips.cc`: the fetch step of `Mipc::MainLoop`,
  `Mipc::Reboot`, and the clock. The two-phase clock is one sequential
  `Tick`: every stage's phase-0 part (writeback, memory, execute, decode),
  then every stage's phase-1 part (memory, execute, decode, fetch).
 */
module Mipc {
  import opened MipsTypes
  import Decode
  import Execute
  import Memory
  import Writeback

  // ---------------------------------------------------------------------
  // Fetch

  /** Fetch brings in a new instruction this cycle: no syscall is pending
      and decode did not stall. */
  predicate Fetches(m: Machine) {
    !m.waitForSyscall && !m.toStall
  }

  /** The fetch step of `Mipc::MainLoop` (phase 1). A pending syscall clears
      IF_ID_CUR; otherwise a stall changes nothing, so the stalled
      instruction is decoded again; otherwise the word at the PC enters
      IF_ID_CUR, `_nfetched` counts it and the PC moves to the next word. */
  function FetchPhase1(m: Machine, env: Env): (r: Machine)
    ensures r == m.(ifIdCur := r.ifIdCur, counters := r.counters, pc := r.pc)
    ensures r.counters == m.counters.(nfetched := r.counters.nfetched)
    ensures r.counters.nfetched == m.counters.nfetched + (if Fetches(m) then 1 else 0)
    ensures m.waitForSyscall ==> r.ifIdCur == Empty
    ensures !m.waitForSyscall && m.toStall ==> r == m
    ensures Fetches(m) ==>
      && r.ifIdCur == m.ifIdCur.(pc := m.pc, ins := env.fetchWord(m.store, m.pc))
      && r.pc == AddWord(m.pc, InstructionBytes)
    ensures !Fetches(m) ==> r.pc == m.pc
  {
    if m.waitForSyscall then
      m.(ifIdCur := m.ifIdCur.Clear())
    else if m.toStall then
      m
    else
      var addr := m.pc;
      var ins := env.fetchWord(m.store, addr);
      m.(ifIdCur := m.ifIdCur.(pc := m.pc, ins := ins),
         counters := m.counters.(nfetched := m.counters.nfetched + 1),
         pc := AddWord(m.pc, InstructionBytes))
  }

  // ---------------------------------------------------------------------
  // Reboot

  /** The boot image argument: a file that cannot be opened, or one whose
      contents `ReadImage` leaves in memory as `store`. */
  datatype BootImage = Unopenable | Loaded(store: Store)

  datatype RebootError = CannotOpenImage

  /** All eight pipeline registers hold the cleared NOP. */
  predicate PipelineEmpty(m: Machine) {
    && m.ifIdCur == Empty && m.ifIdNxt == Empty
    && m.idExCur == Empty && m.idExNxt == Empty
    && m.exMemCur == Empty && m.exMemNxt == Empty
    && m.memWbCur == Empty && m.memWbNxt == Empty
  }

  /** The six per-category counters are zero. */
  predicate CategoryCountersZero(c: Counters) {
    c.numLoad == 0 && c.numStore == 0 && c.fpinst == 0
    && c.numCondBr == 0 && c.numJal == 0 && c.numJr == 0
  }

  /** `Mipc::Reboot`. Without an image only `_boot` drops to 0. An image that
      cannot be opened is a fatal error. A loaded image resets the control
      flags, the category counters and the pipeline, clears `_sim_exit` and
      starts at the boot PC (truncated to 32 bits); the register files,
      HI/LO and `_nfetched` are left as they were. */
  function Reboot(m: Machine, image: Option<BootImage>, bootPC: I32): (r: Result<Machine, RebootError>)
    ensures image.None? ==> r == Success(m.(boot := 0))
    ensures image == Some(Unopenable) ==> r == Failure(CannotOpenImage)
    ensures image.Some? && image.value.Loaded? ==>
      && r.Success?
      && r.value.boot == 1
      && !r.value.waitForSyscall && !r.value.toStall && !r.value.isSubreg
      && CategoryCountersZero(r.value.counters)
      && PipelineEmpty(r.value)
      && r.value.simExit == 0
      && r.value.pc == ToWord(bootPC)
      && r.value.store == image.value.store
      && r.value.gpr == m.gpr && r.value.fpr == m.fpr && r.value.hi == m.hi && r.value.lo == m.lo
      && r.value.counters.nfetched == m.counters.nfetched
  {
    var m0 := m.(boot := 0);
    match image
    case None => Success(m0)
    case Some(Unopenable) => Failure(CannotOpenImage)
    case Some(Loaded(s)) =>
      var m1 := m0.(boot := 1, store := s);
      Success(m1.(
        waitForSyscall := false, toStall := false, isSubreg := false,
        counters := m1.counters.(numLoad := 0, numStore := 0, fpinst := 0,
                                 numCondBr := 0, numJal := 0, numJr := 0),
        ifIdCur := m1.ifIdCur.Clear(), ifIdNxt := m1.ifIdNxt.Clear(),
        idExCur := m1.idExCur.Clear(), idExNxt := m1.idExNxt.Clear(),
        exMemCur := m1.exMemCur.Clear(), exMemNxt := m1.exMemNxt.Clear(),
        memWbCur := m1.memWbCur.Clear(), memWbNxt := m1.memWbNxt.Clear(),
        simExit := 0,
        pc := ToWord(bootPC)))
  }

  // ---------------------------------------------------------------------
  // The clock

  /** Values a stage samples in phase 0 and still uses in phase 1: decode's
      instruction word and memory's `_memControl`. */
  datatype Latches = Latches(ins: Word, memControl: bool)

  /** The samples, taken from the current registers at the start of the
      cycle (no phase-0 part writes a current register). */
  function Sample(m: Machine): Latches {
    Latches(m.ifIdCur.ins, m.exMemCur.memControl)
  }

  /** Every stage's phase-0 part, downstream first. It halts exactly when
      writeback meets an illegal instruction. No part writes a current
      pipeline register, so the values `Sample` reads at the start of the
      cycle are the ones decode and memory latch: the instruction word decode
      copies out of IF_ID_CUR and the `_memControl` of memory's EX_MEM_NXT copy. */
  function Phase0(m: Machine, env: Env): (o: Outcome)
    ensures o.Halted? <==> m.memWbCur.isIllegalOp && !m.memWbCur.isSyscall
    ensures o.Halted? ==> o.reason == IllegalInstruction
    ensures && o.m.ifIdCur == m.ifIdCur && o.m.idExCur == m.idExCur
            && o.m.exMemCur == m.exMemCur && o.m.memWbCur == m.memWbCur
    ensures o.m.memWbNxt == m.memWbCur
    ensures o.Running? ==> o.m.exMemNxt == m.exMemCur
    ensures o.Running? ==> Sample(m) == Latches(o.m.ifIdCur.ins, o.m.exMemNxt.memControl)
    ensures o.Running? ==> RegisterZeroClear(o.m)
    ensures o.m.counters == m.counters
    ensures o.Halted? ==> o.m.gpr == m.gpr && o.m.fpr == m.fpr && o.m.hi == m.hi && o.m.lo == m.lo
  {
    match Writeback.WritebackPhase0(m, env)
    case Halted(h, why) => Halted(h, why)
    case Running(m1) =>
      Running(Decode.DecodePhase0(Execute.ExecutePhase0(Memory.MemoryPhase0(m1), env), env))
  }

  /** The stages' phase-1 parts before fetch, downstream first: memory
      commits, then execute commits the register it computed before decode
      refills ID_EX_NXT. `asWritten` selects the memory commit of the source
      as written. */
  function Commits(m: Machine, env: Env, s: Latches, asWritten: bool): (c: Machine)
    ensures c.toStall == m.toStall && c.waitForSyscall == m.waitForSyscall
    ensures c.ifIdCur == m.ifIdCur && c.pc == m.pc && c.counters == m.counters
    ensures c.gpr == m.gpr && c.fpr == m.fpr && c.hi == m.hi && c.lo == m.lo
    ensures c.simExit == m.simExit && c.boot == m.boot
    ensures c.exMemCur == m.idExNxt
    ensures asWritten ==> c.memWbCur == m.memWbNxt
    ensures !asWritten ==>
      c.memWbCur == (if s.memControl then env.memAccess(m.exMemNxt.memOp, m).reg else m.exMemNxt)
    ensures m.toStall ==> c.idExCur == Empty
    ensures !m.toStall ==> c.idExCur == c.idExNxt
    ensures c == m.(idExCur := c.idExCur, idExNxt := c.idExNxt, exMemCur := c.exMemCur,
                    exMemNxt := c.exMemNxt, memWbCur := c.memWbCur, store := c.store)
    ensures c.store == (if s.memControl then env.memAccess(m.exMemNxt.memOp, m).store else m.store)
    ensures !m.toStall && !asWritten ==>
      c.idExCur == env.realDecode(Execute.ExecutePhase1(Memory.MemoryPhase1(m, env, s.memControl)), s.ins)
    ensures !m.toStall && asWritten ==>
      c.idExCur == env.realDecode(Execute.ExecutePhase1(Memory.MemoryPhase1AsWritten(m, env, s.memControl)), s.ins)
  {
    var a := if asWritten then Memory.MemoryPhase1AsWritten(m, env, s.memControl)
             else Memory.MemoryPhase1(m, env, s.memControl);
    Decode.DecodePhase1(Execute.ExecutePhase1(a), env, s.ins)
  }

  /** Every stage's phase-1 part, with the corrected memory commit: nothing
      but the pipeline registers, memory, the PC and `_nfetched` changes.
      EX_MEM_CUR receives the executed register, MEM_WB_CUR the register
      memory processed, an unstalled ID_EX_CUR the real decode of the latched
      word (seeing memory's and execute's commits, not fetch's), and fetch
      follows the flags decode raised. */
  function Phase1(m: Machine, env: Env, s: Latches): (r: Machine)
    ensures r.toStall == m.toStall && r.waitForSyscall == m.waitForSyscall
    ensures r.gpr == m.gpr && r.fpr == m.fpr && r.hi == m.hi && r.lo == m.lo
    ensures r.simExit == m.simExit && r.boot == m.boot
    ensures r.exMemCur == m.idExNxt
    ensures r.memWbCur == (if s.memControl then env.memAccess(m.exMemNxt.memOp, m).reg else m.exMemNxt)
    ensures r == m.(ifIdCur := r.ifIdCur, idExCur := r.idExCur, idExNxt := r.idExNxt,
                    exMemCur := r.exMemCur, exMemNxt := r.exMemNxt, memWbCur := r.memWbCur,
                    store := r.store, pc := r.pc, counters := r.counters)
    ensures r.counters == m.counters.(nfetched := r.counters.nfetched)
    ensures r.store == (if s.memControl then env.memAccess(m.exMemNxt.memOp, m).store else m.store)
    ensures m.toStall ==> r.idExCur == Empty
    ensures !m.toStall ==> r.idExCur == r.idExNxt
    ensures !m.toStall ==>
      r.idExCur == env.realDecode(Execute.ExecutePhase1(Memory.MemoryPhase1(m, env, s.memControl)), s.ins)
    ensures r.counters.nfetched == m.counters.nfetched + (if Fetches(m) then 1 else 0)
    ensures m.waitForSyscall ==> r.ifIdCur == Empty
    ensures !m.waitForSyscall && m.toStall ==> r.ifIdCur == m.ifIdCur && r.pc == m.pc
    ensures Fetches(m) ==>
      && r.pc == AddWord(m.pc, InstructionBytes)
      && r.ifIdCur == m.ifIdCur.(pc := m.pc, ins := env.fetchWord(r.store, m.pc))
  {
    FetchPhase1(Commits(m, env, s, false), env)
  }

  /** Phase 1 with the memory commit as written in the source: MEM_WB_CUR
      receives MEM_WB_NXT; everything else is as in `Phase1`. */
  function Phase1AsWritten(m: Machine, env: Env, s: Latches): (r: Machine)
    ensures r.toStall == m.toStall && r.waitForSyscall == m.waitForSyscall
    ensures r.gpr == m.gpr && r.fpr == m.fpr && r.hi == m.hi && r.lo == m.lo
    ensures r.simExit == m.simExit && r.boot == m.boot
    ensures r.exMemCur == m.idExNxt
    ensures r.memWbCur == m.memWbNxt
    ensures r == m.(ifIdCur := r.ifIdCur, idExCur := r.idExCur, idExNxt := r.idExNxt,
                    exMemCur := r.exMemCur, exMemNxt := r.exMemNxt, memWbCur := r.memWbCur,
                    store := r.store, pc := r.pc, counters := r.counters)
    ensures r.counters == m.counters.(nfetched := r.counters.nfetched)
    ensures r.store == (if s.memControl then env.memAccess(m.exMemNxt.memOp, m).store else m.store)
    ensures m.toStall ==> r.idExCur == Empty
    ensures !m.toStall ==> r.idExCur == r.idExNxt
    ensures !m.toStall ==>
      r.idExCur == env.realDecode(Execute.ExecutePhase1(Memory.MemoryPhase1AsWritten(m, env, s.memControl)), s.ins)
    ensures r.counters.nfetched == m.counters.nfetched + (if Fetches(m) then 1 else 0)
    ensures m.waitForSyscall ==> r.ifIdCur == Empty
    ensures !m.waitForSyscall && m.toStall ==> r.ifIdCur == m.ifIdCur && r.pc == m.pc
    ensures Fetches(m) ==>
      && r.pc == AddWord(m.pc, InstructionBytes)
      && r.ifIdCur == m.ifIdCur.(pc := m.pc, ins := env.fetchWord(r.store, m.pc))
  {
    FetchPhase1(Commits(m, env, s, true), env)
  }

  /** Register 0 reads zero. */
  predicate RegisterZeroClear(m: Machine) {
    m.gpr[0] == 0
  }

  /** One clock cycle. It stops only on an illegal instruction reaching
      writeback; otherwise register 0 reads zero afterwards and at most one
      instruction has been fetched. */
  function Tick(m: Machine, env: Env): (o: Outcome)
    ensures o.Running? ==> RegisterZeroClear(o.m)
    ensures m.counters.nfetched <= o.m.counters.nfetched <= m.counters.nfetched + 1
    ensures o.Halted? ==>
      && o.reason == IllegalInstruction
      && m.memWbCur.isIllegalOp && !m.memWbCur.isSyscall
      && o.m.gpr == m.gpr && o.m.fpr == m.fpr && o.m.hi == m.hi && o.m.lo == m.lo
  {
    match Phase0(m, env)
    case Halted(h, why) => Halted(h, why)
    case Running(m1) => Running(Phase1(m1, env, Sample(m)))
  }

  /** One clock cycle with the memory stage as written in the source. It
      keeps `Tick`'s guarantees, but MEM_WB_CUR never changes. */
  function TickAsWritten(m: Machine, env: Env): (o: Outcome)
    ensures o.Running? ==> RegisterZeroClear(o.m)
    ensures m.counters.nfetched <= o.m.counters.nfetched <= m.counters.nfetched + 1
    ensures o.Halted? ==>
      && o.reason == IllegalInstruction
      && m.memWbCur.isIllegalOp && !m.memWbCur.isSyscall
      && o.m.gpr == m.gpr && o.m.fpr == m.fpr && o.m.hi == m.hi && o.m.lo == m.lo
    ensures o.Running? ==> o.m.memWbCur == m.memWbCur
  {
    match Phase0(m, env)
    case Halted(h, why) => Halted(h, why)
    case Running(m1) => Running(Phase1AsWritten(m1, env, Sample(m)))
  }

  /** The fetch loop of `Mipc::MainLoop` for at most `cycles` cycles: it
      leaves once `_sim_exit` is raised (checked before each cycle) and
      stops at an illegal instruction. Register 0 stays zero and `_nfetched`
      grows by at most one per cycle. */
  function Run(m: Machine, env: Env, cycles: nat): (o: Outcome)
    ensures RegisterZeroClear(m) ==> RegisterZeroClear(o.m)
    ensures m.counters.nfetched <= o.m.counters.nfetched <= m.counters.nfetched + cycles
    ensures o.Halted? ==> o.reason != NotBooted
    ensures o.Halted? && o.reason == ExitRequested ==> o.m.simExit != 0
    ensures m.simExit != 0 ==> o == Halted(m, ExitRequested)
    ensures o.Running? ==> o.m.simExit == 0
    // a word that trial-decodes as illegal whatever the machine stalls decode
    // for good: it stays in IF_ID_CUR and nothing more is fetched
    ensures (forall mm :: env.trialDecode(mm, m.ifIdCur.ins).isIllegalOp) && !m.waitForSyscall && o.Running? ==>
      o.m.ifIdCur == m.ifIdCur && o.m.counters.nfetched == m.counters.nfetched
    decreases cycles
  {
    if m.simExit != 0 then Halted(m, ExitRequested)
    else if cycles == 0 then Running(m)
    else
      match Tick(m, env)
      case Halted(h, why) => Halted(h, why)
      case Running(m1) =>
        IllegalDecodeStallsInPhase0(m, env);
        Run(m1, env, cycles - 1)
  }

  /** `Mipc::MainLoop`: refuse to run an unbooted machine, zero `_nfetched`,
      then loop. After `cycles` cycles at most `cycles` instructions have
      been fetched. */
  function Simulate(m: Machine, env: Env, cycles: nat): (o: Outcome)
    ensures m.boot == 0 <==> o == Halted(m, NotBooted)
    ensures m.boot != 0 ==> o.m.counters.nfetched <= cycles
  {
    if m.boot == 0 then Halted(m, NotBooted)
    else
      Run(m.(counters := m.counters.(nfetched := 0)), env, cycles)
  }

  // ---------------------------------------------------------------------
  // Properties of one cycle

  /** A stall cycle (no syscall pending) keeps the stalled instruction in
      IF_ID_CUR for decoding again, fetches nothing and sends a bubble into
      ID_EX_CUR. */
  lemma StallHoldsInstruction(m: Machine, env: Env)
    requires Tick(m, env).Running?
    requires Tick(m, env).m.toStall && !Tick(m, env).m.waitForSyscall
    ensures Tick(m, env).m.ifIdCur == m.ifIdCur
    ensures Tick(m, env).m.counters.nfetched == m.counters.nfetched
    ensures Tick(m, env).m.idExCur == Empty
  {
  }

  /** While a syscall is pending, fetch clears IF_ID_CUR and fetches nothing,
      whether or not decode also stalled. */
  lemma SyscallWaitSuspendsFetch(m: Machine, env: Env)
    requires Tick(m, env).Running? && Tick(m, env).m.waitForSyscall
    ensures Tick(m, env).m.ifIdCur == Empty
    ensures Tick(m, env).m.counters.nfetched == m.counters.nfetched
  {
  }

  /** An unstalled cycle with no syscall pending fetches exactly one
      instruction. */
  lemma FetchCountsInstruction(m: Machine, env: Env)
    requires Tick(m, env).Running? && Fetches(Tick(m, env).m)
    ensures Tick(m, env).m.counters.nfetched == m.counters.nfetched + 1
  {
  }

  /** A register that the execute stage does not run a handler on reaches
      EX_MEM_CUR unchanged, and a non-memory instruction in EX_MEM_CUR reaches
      MEM_WB_CUR unchanged, one cycle later. */
  lemma TickAdvancesPipeline(m: Machine, env: Env)
    requires Tick(m, env).Running?
    ensures !Execute.RunsHandler(m.idExCur) ==> Tick(m, env).m.exMemCur == m.idExCur
    ensures !m.exMemCur.memControl ==> Tick(m, env).m.memWbCur == m.exMemCur
  {
  }

  /** Phase 0 of a cycle whose IF_ID_CUR word trial-decodes as illegal
      raises the stall and no syscall wait. */
  lemma IllegalDecodeStallsInPhase0(m: Machine, env: Env)
    ensures (forall mm :: env.trialDecode(mm, m.ifIdCur.ins).isIllegalOp) && !m.waitForSyscall && Phase0(m, env).Running? ==>
      Phase0(m, env).m.toStall && !Phase0(m, env).m.waitForSyscall
  {
  }

  /** An instruction word that trial-decodes as illegal, whatever the machine,
      is decoded again every cycle: decode forces a stall, fetch keeps
      IF_ID_CUR and fetches nothing, and a bubble enters ID_EX_CUR, so the
      word never moves down the pipeline. */
  lemma IllegalDecodeRepeats(m: Machine, env: Env)
    requires forall mm :: env.trialDecode(mm, m.ifIdCur.ins).isIllegalOp
    requires !m.waitForSyscall
    requires Tick(m, env).Running?
    ensures var t := Tick(m, env).m;
      && t.ifIdCur == m.ifIdCur && t.toStall && !t.waitForSyscall
      && t.idExCur == Empty && t.counters.nfetched == m.counters.nfetched
  {
    IllegalDecodeStallsInPhase0(m, env);
  }

  /** A syscall reaching writeback whose emulation asks to quit raises
      `_sim_exit`, and the loop leaves before the next cycle. */
  lemma QuitEndsRun(m: Machine, env: Env, cycles: nat)
    requires m.simExit == 0 && cycles > 0
    requires m.memWbCur.isSyscall && env.emulateSyscall(m.(memWbNxt := m.memWbCur)).quit
    ensures Tick(m, env).Running? && Tick(m, env).m.simExit == 1
    ensures Run(m, env, cycles) == Halted(Tick(m, env).m, ExitRequested)
  {
  }

  /** The input that shows the difference: a non-memory instruction in
      EX_MEM_CUR that is not already in MEM_WB_CUR never reaches writeback as
      written, while the corrected memory stage delivers it. */
  lemma AsWrittenDropsInstruction(m: Machine, env: Env)
    requires !m.exMemCur.memControl && m.exMemCur != m.memWbCur
    requires !m.memWbCur.isIllegalOp || m.memWbCur.isSyscall
    ensures TickAsWritten(m, env).Running? && TickAsWritten(m, env).m.memWbCur != m.exMemCur
    ensures Tick(m, env).Running? && Tick(m, env).m.memWbCur == m.exMemCur
  {
  }

  /** The first cycle after a reboot with an image: nothing is committed
      (only r0 is forced to zero), the PC is not redirected, decode stalls
      only if the cleared IF_ID register decodes as illegal, and fetch
      starts at the boot PC unless decode stalled or raised a syscall wait. */
  lemma FirstCycleAfterReboot(m: Machine, env: Env, s: Store, bootPC: I32)
    ensures Reboot(m, Some(Loaded(s)), bootPC).Success?
    ensures var b := Reboot(m, Some(Loaded(s)), bootPC).value;
      var o := Tick(b, env);
      && o.Running?
      && o.m.gpr[1..] == m.gpr[1..] && o.m.fpr == m.fpr && o.m.hi == m.hi && o.m.lo == m.lo
      && (o.m.toStall <==> o.m.ifIdNxt.isIllegalOp)
      && o.m.pc == (if Fetches(o.m) then AddWord(b.pc, InstructionBytes) else b.pc)
  {
  }
}

=== FILE: syscall.dfy ===
/**
  The glue between the pipeline and the emulated system-call layer:
  `Mipc::fake_syscall` and the register accessors `MipcSysCall::SetReg` /
  `MipcSysCall::GetReg`.
 */
module SysCall {
  import opened MipsTypes

  /** `MipcSysCall::SetReg`: store a 64-bit value into a 32-bit register,
      keeping its low 32 bits; no other state changes. */
  function SetReg(m: Machine, reg: RegIndex, val: I64): (r: Machine)
    ensures r == m.(gpr := r.gpr)
    ensures forall i :: 0 <= i < 32 && i != reg ==> r.gpr[i] == m.gpr[i]
    ensures (r.gpr[reg] - val) % WordModulus == 0
  {
    m.(gpr := m.gpr[reg := ToWord(val)])
  }

  /** `MipcSysCall::GetReg`: the register's value, zero-extended to 64 bits. */
  function GetReg(m: Machine, reg: RegIndex): (v: I64)
    ensures 0 <= v < WordModulus
  {
    m.gpr[reg]
  }

  /** Reading back a register returns the value written, truncated to 32 bits. */
  lemma SetRegThenGetReg(m: Machine, reg: RegIndex, val: I64)
    ensures GetReg(SetReg(m, reg, val), reg) == val % WordModulus
    ensures 0 <= val < WordModulus ==> GetReg(SetReg(m, reg, val), reg) == val
  {
  }

  /** Writing back a value just read changes nothing. */
  lemma GetRegThenSetReg(m: Machine, reg: RegIndex)
    ensures SetReg(m, reg, GetReg(m, reg)) == m
  {
  }

  /** `Mipc::fake_syscall`: hand the machine (with the current PC) to the
      emulator, take back the register file and memory it leaves, and raise
      `_sim_exit` exactly when the emulator reports `quit`. */
  function FakeSyscall(m: Machine, env: Env): (r: Machine)
    ensures r == m.(gpr := r.gpr, store := r.store, simExit := r.simExit)
    ensures r.gpr == env.emulateSyscall(m).gpr && r.store == env.emulateSyscall(m).store
    ensures env.emulateSyscall(m).quit ==> r.simExit == 1
    ensures !env.emulateSyscall(m).quit ==> r.simExit == m.simExit
  {
    var e := env.emulateSyscall(m);
    var m1 := m.(gpr := e.gpr, store := e.store);
    if e.quit then m1.(simExit := 1) else m1
  }
}

=== FILE: types.dfy ===
/**
  The architectural and pipeline state of the Ksim `mips-fast` in-order
  five-stage MIPS pipeline: machine words, the pipeline register (`PipeReg`),
  its canonical empty value, the processor record (`Mipc`) and the external
  collaborators the pipeline calls into.
 */
module MipsTypes {

  /** The source's `unsigned int`: a 32-bit machine word. */
  type Word = x: int | 0 <= x < 0x1_0000_0000

  /** The source's `signed int`. */
  type I32 = x: int | -0x8000_0000 <= x < 0x8000_0000

  /** The source's `LL` (`long long`). */
  type I64 = x: int | -0x8000_0000_0000_0000 <= x < 0x8000_0000_0000_0000

  /** A general-purpose or floating-point register number. */
  type RegIndex = x: int | 0 <= x < 32

  /** Index of one of the 16 floating-point register pairs. */
  type PairIndex = x: int | 0 <= x < 16

  /** Index of a 32-bit word inside a floating-point register pair. */
  type Half = x: int | 0 <= x < 2

  const WordModulus: int := 0x1_0000_0000

  /** Sentinel stored in a source-register index that names no register. */
  const RegDefault: Word := 10000

  /** Branch target left in a cleared register: a recognisable invalid address. */
  const InvalidTarget: Word := 0xdead_beef

  /** Width of one instruction in bytes. */
  const InstructionBytes: Word := 4

  /** Unsigned 32-bit addition, wrapping like C `unsigned` arithmetic. */
  function AddWord(a: Word, b: Word): (r: Word)
    ensures r == a + b || r == a + b - WordModulus
  {
    (a + b) % WordModulus
  }

  /** Conversion of any integer to `unsigned int` (reduction modulo 2^32). */
  function ToWord(x: int): (r: Word)
    ensures (r - x) % WordModulus == 0
  {
    x % WordModulus
  }

  datatype Option<T> = None | Some(value: T)

  datatype Result<T, E> = Success(value: T) | Failure(error: E)

  /** The identity of an opcode handler (the value of a handler function pointer). */
  type HandlerId = nat

  /**
    One pipeline register: everything in flight for one instruction.
    Handler pointers are `Option`s, `None` standing for NULL.
   */
  datatype PipeReg = PipeReg(
    // fetch
    pc: Word,
    ins: Word,
    isSyscall: bool,
    isIllegalOp: bool,
    isNOP: bool,
    // decode
    decodedDST: RegIndex,
    decodedSRC1: I32,
    decodedSRC2: I32,
    regSRC1: Word,
    regSRC2: Word,
    decodedShiftAmt: Word,
    requiresFP: bool,
    hiWrite: bool,
    loWrite: bool,
    memControl: bool,
    hiWPort: bool,
    loWPort: bool,
    subregOperand: Word,
    branchOffset: I32,
    // execute
    bdslot: I32,
    btgt: Word,
    btaken: I32,
    opResultLo: Word,
    opResultHi: Word,
    memoryAddrReg: Word,
    writeREG: bool,
    writeFREG: bool,
    opControl: Option<HandlerId>,
    memOp: Option<HandlerId>
  ) {

    /** The register carries no write, memory, handler, trap or branch effect. */
    predicate Inert() {
      && !isSyscall && !isIllegalOp
      && !writeREG && !writeFREG
      && !hiWPort && !loWPort && !hiWrite && !loWrite
      && !memControl
      && opControl.None? && memOp.None?
      && bdslot == 0 && btaken == 0
    }

    /** `PipeReg::clear`: the canonical empty (NOP) slot. Whatever the
        register held before, the result is the same inert NOP whose
        source indices name no register. */
    function Clear(): (c: PipeReg)
      ensures c.isNOP && c.Inert()
      ensures c.regSRC1 == RegDefault && c.regSRC2 == RegDefault
      ensures c.btgt == InvalidTarget && c.pc == 0 && c.ins == 0
      ensures c.opResultLo == 0 && c.opResultHi == 0 && c.decodedDST == 0
    {
      Empty
    }
  }

  const Empty: PipeReg := PipeReg(
    pc := 0, ins := 0, isSyscall := false, isIllegalOp := false, isNOP := true,
    decodedDST := 0, decodedSRC1 := 0, decodedSRC2 := 0,
    regSRC1 := RegDefault, regSRC2 := RegDefault, decodedShiftAmt := 0,
    requiresFP := false, hiWrite := false, loWrite := false, memControl := false,
    hiWPort := false, loWPort := false, subregOperand := 0, branchOffset := 0,
    bdslot := 0, btgt := InvalidTarget, btaken := 0,
    opResultLo := 0, opResultHi := 0, memoryAddrReg := 0,
    writeREG := false, writeFREG := false,
    opControl := None, memOp := None)

  /** The two 32-bit words `l[0]`, `l[1]` of one floating-point register pair. */
  datatype FpPair = FpPair(w0: Word, w1: Word) {
    function Get(k: Half): Word {
      if k == 0 then w0 else w1
    }

    function Set(k: Half, v: Word): (p: FpPair)
      ensures p.Get(k) == v && p.Get(1 - k) == Get(1 - k)
    {
      if k == 0 then FpPair(v, w1) else FpPair(w0, v)
    }
  }

  type RegFile = s: seq<Word> | |s| == 32 witness seq(32, i => 0)

  type FpFile = s: seq<FpPair> | |s| == 16 witness seq(16, i => FpPair(0, 0))

  /** `FP_TWIDDLE`: 0 on a little-endian host, 1 on a big-endian one. */
  function FpTwiddle(littleEndianHost: bool): Half {
    if littleEndianHost then 0 else 1
  }

  /** The word of pair `dst >> 1` that holds single-precision register `dst`:
      `FP_TWIDDLE ^ (dst & 1)`. */
  function FpWordIndex(littleEndianHost: bool, dst: RegIndex): (k: Half)
    ensures (k == FpTwiddle(littleEndianHost)) <==> (dst % 2 == 0)
  {
    ((FpTwiddle(littleEndianHost) as bv1) ^ ((dst % 2) as bv1)) as int
  }

  /** The statistics counters of `Mipc`. */
  datatype Counters = Counters(
    nfetched: nat,
    numCondBr: nat,
    numJal: nat,
    numJr: nat,
    numLoad: nat,
    numStore: nat,
    fpinst: nat)

  /** The external memory model's contents; only the collaborators in `Env`
      interpret it. */
  type Store = map<int, int>

  /** The processor record `Mipc`: architectural state, control flags,
      counters and the eight pipeline registers. */
  datatype Machine = Machine(
    pc: Word,
    gpr: RegFile,
    fpr: FpFile,
    hi: Word,
    lo: Word,
    boot: Word,
    waitForSyscall: bool,
    toStall: bool,
    isSubreg: bool,
    simExit: I32,
    counters: Counters,
    ifIdCur: PipeReg,
    idExCur: PipeReg,
    exMemCur: PipeReg,
    memWbCur: PipeReg,
    ifIdNxt: PipeReg,
    idExNxt: PipeReg,
    exMemNxt: PipeReg,
    memWbNxt: PipeReg,
    store: Store)

  /** What a memory-access handler leaves behind: the updated in-flight
      register and the memory contents. */
  datatype MemEffect = MemEffect(reg: PipeReg, store: Store)

  /** What the system-call emulator leaves behind: the register file (as set
      through `SetReg`), the memory contents and the `quit` request. */
  datatype TrapEffect = TrapEffect(gpr: RegFile, store: Store, quit: bool)

  /**
    The collaborators the pipeline calls but whose code is not part of this
    model:
    - `trialDecode`: `Dec(ins, FALSE)`, the new IF_ID_NXT;
    - `realDecode`: `Dec(ins, TRUE)`, the new ID_EX_NXT;
    - `execute`: a `func_*` handler, the new ID_EX_NXT;
    - `memAccess`: the `mem_*` handler the pointer designates;
    - `fetchWord`: `BEGetWord(addr, Read(addr & ~7))`;
    - `emulateSyscall`: `EmulateSysCall` of the syscall layer;
    - `littleEndianHost`: the host byte order that selects `FP_TWIDDLE`.
   */
  datatype Env = Env(
    trialDecode: (Machine, Word) -> PipeReg,
    realDecode: (Machine, Word) -> PipeReg,
    execute: (HandlerId, Machine, Word) -> PipeReg,
    memAccess: (Option<HandlerId>, Machine) -> MemEffect,
    fetchWord: (Store, Word) -> Word,
    emulateSyscall: Machine -> TrapEffect,
    littleEndianHost: bool)

  datatype HaltReason = IllegalInstruction | ExitRequested | NotBooted

  /** The result of a simulated cycle or run: still running, or stopped. */
  datatype Outcome = Running(m: Machine) | Halted(m: Machine, reason: HaltReason)

  /** An architectural storage location written by writeback. */
  datatype Loc = GprLoc(i: RegIndex) | FprLoc(pair: PairIndex, half: Half) | HiLoc | LoLoc

  function Read(m: Machine, l: Loc): Word {
    match l
    case GprLoc(i) => m.gpr[i]
    case FprLoc(p, k) => m.fpr[p].Get(k)
    case HiLoc => m.hi
    case LoLoc => m.lo
  }

  /** `PipeReg::clear` forgets the register's previous contents and is idempotent. */
  lemma ClearIgnoresPriorContents(a: PipeReg, b: PipeReg)
    ensures a.Clear() == b.Clear()
    ensures a.Clear().Clear() == a.Clear()
  {
  }
}

=== FILE: wb.dfy ===
/**
  The writeback stage, `Writeback::MainLoop`: trap a syscall to the emulation
  layer, stop the simulation on an illegal instruction, or commit the result
  to a general-purpose register, a floating-point word or HI/LO; register 0
  is forced back to zero.
 */
module Writeback {
  import opened MipsTypes
  import SysCall

  /** The locations a normal commit of `n` writes. The categories are tried
      in priority order: integer register, then FP register, then HI and/or
      LO (the only category that may write two locations). */
  function Targets(n: PipeReg, littleEndianHost: bool): set<Loc> {
    if n.writeREG then {GprLoc(n.decodedDST)}
    else if n.writeFREG then {FprLoc(n.decodedDST / 2, FpWordIndex(littleEndianHost, n.decodedDST))}
    else (if n.loWPort then {LoLoc} else {}) + (if n.hiWPort then {HiLoc} else {})
  }

  /** The value `n` delivers to a location it writes: HI takes the high
      result word, every other location the low one. */
  function Delivered(n: PipeReg, l: Loc): Word {
    if l == HiLoc then n.opResultHi else n.opResultLo
  }

  /** The normal (neither syscall nor illegal) commit of `n`: every target
      location receives its delivered value, every other location keeps its
      value, and nothing outside the register files and HI/LO changes. */
  function Commit(m: Machine, n: PipeReg, littleEndianHost: bool): (r: Machine)
    ensures r == m.(gpr := r.gpr, fpr := r.fpr, hi := r.hi, lo := r.lo)
    ensures forall l :: Read(r, l) == if l in Targets(n, littleEndianHost) then Delivered(n, l) else Read(m, l)
  {
    if n.writeREG then
      m.(gpr := m.gpr[n.decodedDST := n.opResultLo])
    else if n.writeFREG then
      var p: PairIndex := n.decodedDST / 2;
      var k := FpWordIndex(littleEndianHost, n.decodedDST);
      m.(fpr := m.fpr[p := m.fpr[p].Set(k, n.opResultLo)])
    else if n.loWPort || n.hiWPort then
      m.(lo := if n.loWPort then n.opResultLo else m.lo,
         hi := if n.hiWPort then n.opResultHi else m.hi)
    else
      m
  }

  /** `_gpr[0] = 0`, done at the end of every writeback step that does not exit. */
  function ForceZero(m: Machine): (r: Machine)
    ensures r.gpr[0] == 0
    ensures r == m.(gpr := r.gpr) && r.gpr[1..] == m.gpr[1..]
  {
    m.(gpr := m.gpr[0 := 0])
  }

  /** Phase 0 of `Writeback::MainLoop` (the whole stage runs in this phase):
      MEM_WB_NXT receives MEM_WB_CUR, which then decides between a syscall
      trap, an illegal-instruction halt and a normal commit. */
  function WritebackPhase0(m: Machine, env: Env): (o: Outcome)
    ensures o.m.memWbNxt == m.memWbCur
    ensures o.Running? ==> o.m.gpr[0] == 0
    // a syscall traps to the emulator, resumes fetch after itself and commits
    // no result; the emulator's quit request raises `_sim_exit`
    ensures m.memWbCur.isSyscall ==>
      var e := env.emulateSyscall(m.(memWbNxt := m.memWbCur));
      && o.Running?
      && o.m == m.(memWbNxt := m.memWbCur, gpr := o.m.gpr, store := o.m.store, simExit := o.m.simExit,
                   pc := o.m.pc, waitForSyscall := false)
      && o.m.pc == AddWord(m.memWbCur.pc, InstructionBytes)
      && o.m.gpr[1..] == e.gpr[1..]
      && o.m.store == e.store
      && o.m.simExit == (if e.quit then 1 else m.simExit)
    // an illegal instruction stops the simulation with nothing written
    ensures !m.memWbCur.isSyscall && m.memWbCur.isIllegalOp ==>
      o == Halted(m.(memWbNxt := m.memWbCur), IllegalInstruction)
    // anything else commits its targets and nothing else
    ensures !m.memWbCur.isSyscall && !m.memWbCur.isIllegalOp ==>
      && o.Running?
      && o.m == m.(memWbNxt := m.memWbCur, gpr := o.m.gpr, fpr := o.m.fpr, hi := o.m.hi, lo := o.m.lo)
      && forall l :: l != GprLoc(0) ==>
           Read(o.m, l) == if l in Targets(m.memWbCur, env.littleEndianHost) then Delivered(m.memWbCur, l) else Read(m, l)
  {
    var m1 := m.(memWbNxt := m.memWbCur);
    var n := m1.memWbNxt;
    if n.isSyscall then
      var m2 := SysCall.FakeSyscall(m1, env);
      Running(ForceZero(m2.(pc := AddWord(n.pc, InstructionBytes), waitForSyscall := false)))
    else if n.isIllegalOp then
      Halted(m1, IllegalInstruction)
    else
      Running(ForceZero(Commit(m1, n, env.littleEndianHost)))
  }

  /** An integer write changes exactly the destination register, which
      receives the low result word (unless it is register 0). */
  lemma IntegerWriteChangesOnlyDestination(m: Machine, env: Env)
    requires !m.memWbCur.isSyscall && !m.memWbCur.isIllegalOp && m.memWbCur.writeREG
    ensures WritebackPhase0(m, env).Running?
    ensures var r := WritebackPhase0(m, env).m;
      && (m.memWbCur.decodedDST != 0 ==> r.gpr[m.memWbCur.decodedDST] == m.memWbCur.opResultLo)
      && (forall i :: 0 < i < 32 && i != m.memWbCur.decodedDST ==> r.gpr[i] == m.gpr[i])
      && r.fpr == m.fpr && r.hi == m.hi && r.lo == m.lo
  {
  }

  /** Register 0 reads zero after writeback even when the result targeted it. */
  lemma RegisterZeroSurvivesWrite(m: Machine, env: Env)
    requires !m.memWbCur.isSyscall && !m.memWbCur.isIllegalOp
    requires m.memWbCur.writeREG && m.memWbCur.decodedDST == 0
    ensures WritebackPhase0(m, env).m.gpr[0] == 0
  {
  }

  /** An FP write stores the low result word into word `FP_TWIDDLE ^ (dst & 1)`
      of pair `dst >> 1`; the other word of that pair and every other pair keep
      their values, and the integer registers (but r0), HI and LO are untouched. */
  lemma FloatingPointWriteLandsInPair(m: Machine, env: Env)
    requires !m.memWbCur.isSyscall && !m.memWbCur.isIllegalOp
    requires !m.memWbCur.writeREG && m.memWbCur.writeFREG
    ensures WritebackPhase0(m, env).Running?
    ensures var r := WritebackPhase0(m, env).m;
      var d := m.memWbCur.decodedDST;
      var k := FpWordIndex(env.littleEndianHost, d);
      && r.fpr[d / 2].Get(k) == m.memWbCur.opResultLo
      && r.fpr[d / 2].Get(1 - k) == m.fpr[d / 2].Get(1 - k)
      && (forall p :: 0 <= p < 16 && p != d / 2 ==> r.fpr[p] == m.fpr[p])
      && r.gpr[1..] == m.gpr[1..] && r.hi == m.hi && r.lo == m.lo
  {
  }

  /** HI and LO can commit in the same cycle, HI from the high result word and
      LO from the low one. */
  lemma HiAndLoCommitTogether(m: Machine, env: Env)
    requires !m.memWbCur.isSyscall && !m.memWbCur.isIllegalOp
    requires !m.memWbCur.writeREG && !m.memWbCur.writeFREG
    requires m.memWbCur.loWPort && m.memWbCur.hiWPort
    ensures WritebackPhase0(m, env).Running?
    ensures WritebackPhase0(m, env).m.lo == m.memWbCur.opResultLo
    ensures WritebackPhase0(m, env).m.hi == m.memWbCur.opResultHi
  {
  }

  /** A cleared MEM_WB register commits nothing but the zeroing of r0. */
  lemma ClearedCommitsNothing(m: Machine, env: Env)
    requires m.memWbCur == Empty
    ensures WritebackPhase0(m, env) == Running(m.(memWbNxt := m.memWbCur, gpr := m.gpr[0 := 0]))
  {
  }
}
